=== FILE: README.md ===
# Arabic Tutor backend: admission layer

This is a Dafny model of the stateful admission layer of the Arabic Tutor backend (`Backend/app.py`). The layer sits in front of the billing and completion providers and has four parts:

- **Email format check** (`is_valid_email`). `EmailFormat` models it as a hand-written recogniser of `local@domain.tld`. It also includes Python's `$`, which accepts one trailing newline. The lemma `MatchesIffPattern` proves that the recogniser accepts exactly the strings that fit the pattern written position by position.
- **Verification-code store** (`verify_email` / `confirm_email`). `Verification` models it as a map from address to `{code, issuedAt, verified}`. Issuing a code overwrites the previous one. Confirming is a five-way decision: NotFound, AlreadyVerified, Expired (the entry is deleted), Mismatch (the entry is kept) and Verified. The class `CodeStore` updates the map in place, as the endpoints do. Its methods are proved equal to the pure transitions `Issue` and `Confirm`. The codes are Python's `str(n)`, modelled in `DecimalText`.
- **Daily usage ledger and chat gate** (`chat`). `UsageQuota` keys the ledger by (address, day), which the code writes as the text `address:day`. A free user is refused at ten messages. Otherwise the count goes up before the provider is called and is never refunded. Subscribed and anonymous users are unmetered. `UsageQuota` also holds the read-only status report of `check_subscription`. The class `UsageLedger` holds the map and keeps every count between 1 and 10.
- **Entitlement and checkout**:
  - `Entitlement.HasSubscription` models `check_user_has_subscription`.
  - `Checkout` models the plan-to-price table and the session request of `create_checkout`.

The clock (`now` in whole seconds, `today` as a date string), the random draw behind the code, and the answers of the billing and completion providers are all parameters. Addresses are taken already trimmed and lower-cased.

The model follows the code in three places where the code's behaviour is easy to misread:
- `check_subscription` does not swallow billing errors: they give a 500.
- `check_subscription` reports 0 remaining messages for a customer with no active subscription, not `10 - usage`.
- `chat` refuses an invalid address with a 400 before any entitlement decision.

`LapsedCustomerStatusUnderstates` records that the status report and the gate disagree for such a customer.

## Model

| member | source | states |
|---|---|---|
| EmailFormat.IsValidEmail | Backend/app.py:42-47 | the empty string is never a valid email |
| EmailFormat.MatchesIffPattern | Backend/app.py:46-47 | the recogniser (first `@`, last `.`, three class checks) accepts exactly the strings of the form local@domain.tld with the three character classes and a top-level label of two or more letters |
| EmailFormat.ValidIffPattern | Backend/app.py:42-47 | `is_valid_email` accepts exactly the strings that fit the pattern, plus those strings followed by one newline (where `$` also matches) |
| EmailFormat.StrippedValidity | Backend/app.py:46-47 | on input without a trailing newline, validity is exactly fitting the pattern |
| EmailFormat.NoAtIsInvalid | Backend/app.py:46-47 | a string without `@` is never valid |
| EmailFormat.AnonymousIsInvalid | Backend/app.py:289-297 | the sentinel `anonymous` is not a valid email, so it can never reach billing or the ledger as an address |
| EmailFormat.ValidHasNoColon | Backend/app.py:46 | a valid email contains no `:` |
| DecimalText.Decimal | Backend/app.py:127 | `str(n)` is a non-empty string of digits with no leading zero |
| DecimalText.DecimalRoundTrip | Backend/app.py:127 | reading the digits of `str(n)` back gives `n` |
| DecimalText.DecimalLength | Backend/app.py:127 | a number between 10^k and 10^(k+1) has k+1 digits |
| DecimalText.DecimalInjective | Backend/app.py:127 | different numbers have different texts |
| Verification.CodeFor | Backend/app.py:127 | the code for a draw in 0..899999 is six digits whose value is the draw plus 100000, so it lies in 100000..999999 |
| Verification.Issue | Backend/app.py:116-134 | an invalid address is refused with the store unchanged; a valid one gets an unconfirmed entry stamped `now` with a six-digit code, replacing any earlier one; every other address keeps its entry |
| Verification.Confirm | Backend/app.py:150-178 | each of the five outcomes holds exactly under its own condition: NotFound when there is no entry; AlreadyVerified when the entry is confirmed, whatever the code and time; Expired when unconfirmed and more than 600 s old, and then the entry is deleted; Mismatch when unconfirmed, within 600 s and the code differs, with the store kept; Verified when unconfirmed, within 600 s and the code matches, and only that address's flag changes; so success needs a confirmed entry or the right code in time |
| Verification.IssueThenConfirm | Backend/app.py:127-183 | issuing and presenting the issued code within ten minutes verifies; a later confirmation with any code reports already verified and changes nothing |
| Verification.ExpiredThenNotFound | Backend/app.py:158-171 | a late confirmation reports Expired and deletes the entry, so the next confirmation reports NotFound |
| Verification.BoundaryIsNotExpired | Backend/app.py:168-169 | exactly 600 s after issue the code is still accepted |
| Verification.MismatchThenRetry | Backend/app.py:173-178 | a wrong code within the window leaves the store unchanged, and the right code still verifies afterwards |
| Verification.ReissueInvalidatesOldCode | Backend/app.py:127-134 | after a second issue with a different draw, the first code no longer matches |
| Verification.CodeStore.constructor | Backend/app.py:40 | the store starts empty |
| Verification.CodeStore.RequestCode | Backend/app.py:116-142 | the in-place update of the map is the one `Issue` describes, and the outcome is `Issue`'s |
| Verification.CodeStore.ConfirmCode | Backend/app.py:150-183 | the in-place update of the map (including the `del` and the flag update) is the one `Confirm` describes, and the outcome is `Confirm`'s |
| Entitlement.HasSubscription | Backend/app.py:360-380 | anonymous or invalid addresses have no subscription whatever billing says; a billing failure or a missing customer means no subscription; only a customer with an active subscription has one |
| Entitlement.UnqueriedBillingIsIrrelevant | Backend/app.py:362-363 | for an address billing is not asked about, the billing answer does not affect the result |
| Entitlement.AnonymousNeverSubscribed | Backend/app.py:362-363 | the anonymous sentinel never has a subscription |
| UsageQuota.KeyTextInjective | Backend/app.py:305 | for valid addresses the text key `email:day` determines the address and the day, so keying the ledger by pairs loses nothing |
| UsageQuota.Chat | Backend/app.py:283-348 | an empty message list or an invalid non-anonymous address is refused with the ledger unchanged; the limit refusal happens exactly for a free user at 10 or more, reports 0 left and an upgrade hint, and leaves the ledger unchanged; every other admitted request reaches the provider; only that user's (address, today) count moves, by one, and only if it was under 10; `remaining` is `unlimited` exactly for unmetered users and otherwise 10 minus the new count, below 10; counts stay within 1..10 |
| UsageQuota.ProviderFailureIsNotRefunded | Backend/app.py:316-348 | the ledger after a chat does not depend on the provider's reply, and a refused chat does not depend on it at all |
| UsageQuota.UnmeteredChat | Backend/app.py:300-320 | a subscribed or anonymous user with messages always reaches the provider, is told `unlimited`, and leaves the ledger unchanged |
| UsageQuota.ChatKeepsKeysValidated | Backend/app.py:296-317 | the ledger only ever gains keys for valid, non-anonymous addresses |
| UsageQuota.ChargedChat | Backend/app.py:303-318 | an admitted chat from a free user stores the old count plus one and reports 10 minus the new count |
| UsageQuota.DailyCap | Backend/app.py:303-318 | of n chats a free user sends on one day from a count c of at most 10, exactly min(n, 10 - c) reach the provider and the count ends at min(c + n, 10), whatever each of the n provider calls answers or however it fails |
| UsageQuota.EleventhChatRefused | Backend/app.py:308-314 | from a fresh day, ten chats reach the provider whatever they are answered, and the eleventh is refused with 0 left and the ledger unchanged |
| UsageQuota.StatusOf | Backend/app.py:246-275 | an invalid address gets 10 without a billing query; a billing failure is an error; with no customer the report is no subscription, no status and 10 minus today's usage, floored at 0; a customer without an active subscription gets 0; an active subscriber gets `active` and `unlimited`; `unlimited` exactly when subscribed; an error happens exactly on a billing failure for a valid address |
| UsageQuota.StatusAgreesWithGate | Backend/app.py:249-260 | for an address with no billing customer, the report shows messages left exactly when the next chat reaches the provider |
| UsageQuota.LapsedCustomerStatusUnderstates | Backend/app.py:262-275 | a customer without an active subscription is reported as having 0 left even when the gate still admits their next chat |
| UsageQuota.UsageLedger.constructor | Backend/app.py:39 | the ledger starts empty |
| UsageQuota.UsageLedger.HandleChat | Backend/app.py:283-348 | the in-place read-modify-write of the ledger gives `Chat`'s new ledger and response, and keeps every count within 1..10 |
| UsageQuota.UsageLedger.CheckSubscription | Backend/app.py:240-275 | reports `StatusOf` of the current ledger, and has no frame to change anything in |
| Checkout.PriceFor | Backend/app.py:208-216 | only `premium` and `premium_voice` have a price, and only when it is configured and non-empty; the price is that plan's setting |
| Checkout.ChosenPrice | Backend/app.py:196-216 | a price is chosen only for a missing plan (taken as `premium`) or one of the two known names, never for a `null` plan, and it is that plan's non-empty setting |
| Checkout.Start | Backend/app.py:194-230 | an invalid address is refused, exactly; a valid address is refused for the plan exactly when the plan (missing means `premium`, `null` means none) has no usable price; otherwise a session is opened: card payment, one subscription line of that price, the address as customer, success and cancel urls on the frontend address (default `http://localhost:8000`) |
| Checkout.CreateCheckout | Backend/app.py:191-236 | a refused start is answered without the billing provider; for an accepted request the answer is the provider's url verbatim when it created a session and its error when it failed |
| Checkout.NullPlanRefused | Backend/app.py:196-216 | a `null` plan is not the default: a valid address asking for it is refused for the plan |
| Checkout.DefaultPlanIsPremium | Backend/app.py:196 | a request without a plan is treated as the `premium` plan |
| Checkout.UnknownPlanRefused | Backend/app.py:213-216 | a valid address asking for any other plan is refused for the plan |

## Left out

- Flask routing, CORS, JSON parsing and the per-IP rate limits of `flask_limiter` (Backend/app.py:19-28, 93-112, 383-388). They are framework configuration, not logic. The endpoints `/` and `/api/health` return constants and are not modelled.
- The `.strip().lower()` normalisation of addresses and codes. The model takes the normalised strings. Python's Unicode whitespace and case rules are not modelled.
- The billing client calls (`Customer.list`, `Subscription.list`, `checkout.Session.create`) and the completion call (`messages.create`). These are foreign network clients. Their answers are parameters: `BillingLookup`, `SessionReply` and `ProviderReply`. The system prompt, `max_tokens` (default 1024) and the message contents are only passed through to the completion call, so the model does not track them.
- `send_verification_email` and SMTP (Backend/app.py:49-91). This is I/O, and its result is ignored by the caller.
- `datetime.now()`, `strftime` and `secrets.randbelow`. They are replaced by the parameters `now` (whole seconds), `today` and `draw`. Sub-second differences in the 600 s expiry test are not modelled.
- The lost update on `user_usage` under concurrent requests. The model is sequential.
- Logging, `print`, tracebacks and the exact wording of error messages. Responses are distinguished by constructor.
- Exceptions in the handlers other than the provider's and the billing provider's, such as a missing JSON body or a non-string field. They give a 500 in the running system and are not modelled.
- UsageQuota.StatusOf: the `subscription_status` key that is absent (an invalid address, or no customer) and the one that is `None` (a customer without a subscription) are both `None`, because the model has no JSON.

=== FILE: checkout.dfy ===
/**
 * `create_checkout`: validates the address, maps the plan name to the price
 * configured for it, and asks the billing provider for a hosted checkout
 * session. The deployment settings are a parameter, and the provider's
 * answer to the session request is another.
 */
module Checkout {
  import opened Optional
  import opened EmailFormat

  /** The plan used when the request names none. */
  const DEFAULT_PLAN: string := "premium"
  const VOICE_PLAN: string := "premium_voice"
  /** The redirect base used when no frontend address is configured. */
  const DEFAULT_FRONTEND: string := "http://localhost:8000"

  /** The settings read from the environment: the two price ids and the frontend address. */
  datatype Settings = Settings(premiumPrice: Option<string>, voicePrice: Option<string>, frontendUrl: Option<string>)

  /** The subscription session asked of the billing provider. */
  datatype SessionRequest = SessionRequest(
    paymentMethodTypes: seq<string>,
    priceId: string,
    quantity: nat,
    mode: string,
    successUrl: string,
    cancelUrl: string,
    customerEmail: string)

  datatype CheckoutStart =
    | InvalidEmail                     // 400 "Invalid email format"
    | InvalidPlan                      // 400 "Invalid plan selected"
    | OpenSession(request: SessionRequest)

  /** What the billing provider does with the session request. */
  datatype SessionReply = SessionCreated(url: string) | SessionFailed(detail: string)

  datatype CheckoutResponse =
    | Refused(reason: CheckoutStart)   // 400
    | CheckoutUrl(url: string)         // 200, the provider's url verbatim
    | CheckoutError(detail: string)    // 500

  /**
   * The price for a plan: only the two known plans have one, and only when
   * the setting is present and non-empty (`if not price_id`).
   */
  function PriceFor(plan: string, settings: Settings): (price: Option<string>)
    ensures price.Some? ==> price.value != ""
    ensures price.Some? ==> plan == DEFAULT_PLAN || plan == VOICE_PLAN
    ensures plan == DEFAULT_PLAN ==>
      (price.Some? <==> settings.premiumPrice.Some? && settings.premiumPrice.value != "")
    ensures plan == VOICE_PLAN ==>
      (price.Some? <==> settings.voicePrice.Some? && settings.voicePrice.value != "")
    ensures price.Some? ==> price == (if plan == DEFAULT_PLAN then settings.premiumPrice else settings.voicePrice)
  {
    var configured :=
      if plan == DEFAULT_PLAN then settings.premiumPrice
      else if plan == VOICE_PLAN then settings.voicePrice
      else None;
    if configured.Some? && configured.value != "" then configured else None
  }

  /**
   * The `plan` field of the request body: missing (then `premium`), JSON
   * `null` (then no plan at all), or a name.
   */
  datatype PlanField = Absent | Null | Given(name: string)

  /** `data.get('plan', 'premium')` followed by `price_ids.get(plan)` and the `if not price_id` test. */
  function ChosenPrice(plan: PlanField, settings: Settings): (price: Option<string>)
    // a price exists only for a missing plan or one of the two known names, and is that plan's non-empty setting
    ensures price.Some? ==>
      && price.value != "" && !plan.Null?
      && (plan.Absent? || plan.name == DEFAULT_PLAN || plan.name == VOICE_PLAN)
    ensures price.Some? ==>
      price == (if plan.Absent? || plan.name == DEFAULT_PLAN then settings.premiumPrice else settings.voicePrice)
  {
    match plan
    case Absent => PriceFor(DEFAULT_PLAN, settings)
    case Null => None
    case Given(name) => PriceFor(name, settings)
  }

  /** The frontend address the provider redirects back to. */
  function Domain(settings: Settings): string {
    settings.frontendUrl.GetOr(DEFAULT_FRONTEND)
  }

  /**
   * The decision before the billing call: an invalid address is refused
   * first, then a plan without a usable price; otherwise one card-paid
   * subscription line of that price for the address, redirecting to the
   * frontend.
   */
  function Start(email: string, plan: PlanField, settings: Settings): (r: CheckoutStart)
    ensures r == InvalidEmail <==> !IsValidEmail(email)
    ensures r == InvalidPlan <==> IsValidEmail(email) && ChosenPrice(plan, settings).None?
    ensures r.OpenSession? <==> IsValidEmail(email) && ChosenPrice(plan, settings).Some?
    ensures r.OpenSession? ==>
      && Some(r.request.priceId) == ChosenPrice(plan, settings)
      && r.request.customerEmail == email
      && r.request.paymentMethodTypes == ["card"]
      && r.request.mode == "subscription" && r.request.quantity == 1
      && r.request.successUrl == Domain(settings) + "/success.html?session_id={CHECKOUT_SESSION_ID}"
      && r.request.cancelUrl == Domain(settings)
  {
    if !IsValidEmail(email) then InvalidEmail
    else
      var price := ChosenPrice(plan, settings);
      if price.None? then InvalidPlan
      else
        var domain := Domain(settings);
        OpenSession(SessionRequest(
          ["card"], price.value, 1, "subscription",
          domain + "/success.html?session_id={CHECKOUT_SESSION_ID}", domain, email))
  }

  /**
   * The endpoint's answer: a refusal without asking the provider, or, for an
   * accepted request, the provider's url verbatim or its error.
   */
  function CreateCheckout(email: string, plan: PlanField, settings: Settings, reply: SessionReply): (r: CheckoutResponse)
    ensures !Start(email, plan, settings).OpenSession? ==> r == Refused(Start(email, plan, settings))
    ensures Start(email, plan, settings).OpenSession? ==>
      (r.CheckoutUrl? <==> reply.SessionCreated?) && (r.CheckoutError? <==> reply.SessionFailed?)
    ensures r.CheckoutUrl? ==> reply == SessionCreated(r.url)
    ensures r.CheckoutError? ==> reply == SessionFailed(r.detail)
  {
    var start := Start(email, plan, settings);
    if !start.OpenSession? then Refused(start)
    else
      match reply
      case SessionCreated(url) => CheckoutUrl(url)
      case SessionFailed(detail) => CheckoutError(detail)
  }

  /** A request that names no plan is a request for the premium plan. */
  lemma DefaultPlanIsPremium(email: string, settings: Settings)
    ensures Start(email, Absent, settings) == Start(email, Given(DEFAULT_PLAN), settings)
  {
  }

  /** A valid address asking for any plan other than the two known ones is refused for the plan. */
  lemma UnknownPlanRefused(email: string, plan: string, settings: Settings)
    requires IsValidEmail(email) && plan != DEFAULT_PLAN && plan != VOICE_PLAN
    ensures Start(email, Given(plan), settings) == InvalidPlan
  {
  }

  /** A JSON `null` plan is not the default: it has no price, so a valid address is refused for the plan. */
  lemma NullPlanRefused(email: string, settings: Settings)
    requires IsValidEmail(email)
    ensures Start(email, Null, settings) == InvalidPlan
  {
  }
}

=== FILE: decimal_text.dfy ===
/**
 * Python's `str(n)` for a natural number: its decimal digits, most
 * significant first, without leading zeros. The verification code is the
 * text of a number, so the code store compares strings of digits.
 */
module DecimalText {

  predicate AllDigits(s: string) {
    forall i :: 0 <= i < |s| ==> '0' <= s[i] <= '9'
  }

  function DigitChar(d: nat): (c: char)
    requires d < 10
    ensures '0' <= c <= '9'
  {
    ('0' as int + d) as char
  }

  /** `str(n)`. */
  function Decimal(n: nat): (s: string)
    ensures |s| >= 1 && AllDigits(s)
    ensures n > 0 ==> s[0] != '0'
    decreases n
  {
    if n < 10 then [DigitChar(n)]
    else Decimal(n / 10) + [DigitChar(n % 10)]
  }

  /** The number a string of digits denotes (the inverse of `Decimal`). */
  function DigitsValue(s: string): nat
    requires AllDigits(s)
  {
    if s == [] then 0
    else DigitsValue(s[..|s| - 1]) * 10 + (s[|s| - 1] as int - '0' as int)
  }

  function Pow10(k: nat): nat {
    if k == 0 then 1 else 10 * Pow10(k - 1)
  }

  /** Reading back the text of `n` gives `n`. */
  lemma {:induction false} DecimalRoundTrip(n: nat)
    ensures DigitsValue(Decimal(n)) == n
    decreases n
  {
    if n >= 10 {
      var s := Decimal(n);
      assert s[..|s| - 1] == Decimal(n / 10);
      DecimalRoundTrip(n / 10);
    }
  }

  /** A number with `k + 1` digits is written with `k + 1` characters. */
  lemma {:induction false} DecimalLength(n: nat, k: nat)
    requires Pow10(k) <= n < 10 * Pow10(k)
    ensures |Decimal(n)| == k + 1
  {
    if k > 0 {
      assert Pow10(k) == 10 * Pow10(k - 1);
      DecimalLength(n / 10, k - 1);
    }
  }

  /** Different numbers have different texts. */
  lemma DecimalInjective(m: nat, n: nat)
    requires Decimal(m) == Decimal(n)
    ensures m == n
  {
    DecimalRoundTrip(m);
    DecimalRoundTrip(n);
  }
}

=== FILE: email_format.dfy ===
/**
 * The email-format check `is_valid_email`: a hand-written recogniser for the
 * anchored pattern `local@domain.tld`, where `local` is one or more of
 * `[A-Za-z0-9._%+-]`, `domain` is one or more of `[A-Za-z0-9.-]` and `tld` is
 * two or more ASCII letters. The pattern is matched with Python's `re.match`,
 * whose `$` also matches just before one final newline.
 */
module EmailFormat {

  /** The identity the chat endpoint uses when the request names no user. */
  const ANONYMOUS: string := "anonymous"

  predicate IsLetter(c: char) {
    'a' <= c <= 'z' || 'A' <= c <= 'Z'
  }

  predicate IsDigit(c: char) {
    '0' <= c <= '9'
  }

  /** The class `[a-zA-Z0-9._%+-]` of the local part. */
  predicate IsLocalChar(c: char) {
    IsLetter(c) || IsDigit(c) || c == '.' || c == '_' || c == '%' || c == '+' || c == '-'
  }

  /** The class `[a-zA-Z0-9.-]` of the domain part. */
  predicate IsDomainChar(c: char) {
    IsLetter(c) || IsDigit(c) || c == '.' || c == '-'
  }

  predicate AllLocal(s: string) {
    forall i :: 0 <= i < |s| ==> IsLocalChar(s[i])
  }

  predicate AllDomain(s: string) {
    forall i :: 0 <= i < |s| ==> IsDomainChar(s[i])
  }

  predicate AllLetters(s: string) {
    forall i :: 0 <= i < |s| ==> IsLetter(s[i])
  }

  /** Position of the first `c` in `s`, or `|s|` when there is none. */
  function FirstIndex(s: string, c: char): (i: nat)
    ensures i <= |s|
    ensures i < |s| ==> s[i] == c
    ensures forall k :: 0 <= k < i ==> s[k] != c
  {
    if s == [] then 0
    else if s[0] == c then 0
    else 1 + FirstIndex(s[1..], c)
  }

  /** Position of the last `c` in `s`, or -1 when there is none. */
  function LastIndex(s: string, c: char): (i: int)
    ensures -1 <= i < |s|
    ensures 0 <= i ==> s[i] == c
    ensures forall k :: i < k < |s| ==> s[k] != c
  {
    if s == [] then -1
    else if s[|s| - 1] == c then |s| - 1
    else LastIndex(s[..|s| - 1], c)
  }

  /**
   * The regular expression written out position by position: `s[at]` is the
   * `@`, `s[dot]` is the literal `.` before the top-level label, and the three
   * pieces around them are non-empty runs of their character classes, the last
   * one at least two letters long. `s` ends where the pattern ends.
   */
  ghost predicate ShapeAt(s: string, at: int, dot: int) {
    && 0 < at && at + 1 < dot && dot + 2 < |s|
    && s[at] == '@' && s[dot] == '.'
    && AllLocal(s[..at]) && AllDomain(s[at + 1..dot]) && AllLetters(s[dot + 1..])
  }

  ghost predicate FitsPattern(s: string) {
    exists at, dot :: ShapeAt(s, at, dot)
  }

  /**
   * The recogniser: the local part has no `@`, so the pattern's `@` is the
   * first one; the top-level label has no `.`, so the pattern's `.` is the
   * last one. Everything else is a class check on the three pieces.
   */
  predicate Matches(s: string) {
    var at := FirstIndex(s, '@');
    var dot := LastIndex(s, '.');
    && 0 < at && at + 1 < dot && dot + 2 < |s|
    && AllLocal(s[..at]) && AllDomain(s[at + 1..dot]) && AllLetters(s[dot + 1..])
  }

  /** The recogniser accepts exactly the strings that fit the pattern. */
  lemma MatchesIffPattern(s: string)
    ensures Matches(s) <==> FitsPattern(s)
  {
    var at := FirstIndex(s, '@');
    var dot := LastIndex(s, '.');
    if Matches(s) {
      assert ShapeAt(s, at, dot);
    }
    if FitsPattern(s) {
      var a, d :| ShapeAt(s, a, d);
      // no `@` before the pattern's own, no `.` after it
      forall k | 0 <= k < a ensures s[k] != '@' {
        assert s[..a][k] == s[k];
      }
      forall k | d < k < |s| ensures s[k] != '.' {
        assert s[d + 1..][k - d - 1] == s[k];
      }
      assert at == a && dot == d;
    }
  }

  /**
   * `is_valid_email`: empty input is invalid; otherwise the whole string must
   * match, or be one final newline after a string that matches (the place
   * where Python's `$` also matches). ValidIffPattern states it without the
   * recogniser.
   */
  function IsValidEmail(s: string): (valid: bool)
    ensures s == [] ==> !valid
  {
    if s == [] then false
    else Matches(s) || (s[|s| - 1] == '\n' && Matches(s[..|s| - 1]))
  }

  /** The accepted strings are those that fit the pattern, with at most one newline after it. */
  lemma ValidIffPattern(s: string)
    ensures IsValidEmail(s) <==>
      FitsPattern(s) || (|s| > 0 && s[|s| - 1] == '\n' && FitsPattern(s[..|s| - 1]))
  {
    MatchesIffPattern(s);
    if |s| > 0 {
      MatchesIffPattern(s[..|s| - 1]);
    }
  }

  /** On input without a trailing newline (the callers strip it) the check is the pattern alone. */
  lemma StrippedValidity(s: string)
    requires |s| > 0 && s[|s| - 1] != '\n'
    ensures IsValidEmail(s) <==> FitsPattern(s)
  {
    ValidIffPattern(s);
  }

  /** A string without `@` is never valid; in particular the anonymous sentinel is not an email. */
  lemma NoAtIsInvalid(s: string)
    requires forall k :: 0 <= k < |s| ==> s[k] != '@'
    ensures !IsValidEmail(s)
  {
    ValidIffPattern(s);
    if |s| > 0 {
      var p := s[..|s| - 1];
      assert forall k :: 0 <= k < |p| ==> p[k] == s[k];
    }
  }

  lemma AnonymousIsInvalid()
    ensures !IsValidEmail(ANONYMOUS)
  {
    NoAtIsInvalid(ANONYMOUS);
  }

  /** Every character of a string that fits the pattern is a letter, digit, `@` or one of `._%+-`. */
  lemma PatternCharacters(s: string, at: int, dot: int)
    requires ShapeAt(s, at, dot)
    ensures forall k :: 0 <= k < |s| ==> IsLocalChar(s[k]) || s[k] == '@'
  {
    forall k | 0 <= k < |s|
      ensures IsLocalChar(s[k]) || s[k] == '@'
    {
      if k < at {
        assert s[..at][k] == s[k];
      } else if at < k < dot {
        assert s[at + 1..dot][k - at - 1] == s[k];
      } else if dot < k {
        assert s[dot + 1..][k - dot - 1] == s[k];
      }
    }
  }

  /**
   * A valid email contains no `:`; so the usage key `email + ":" + day`
   * determines the email and the day (see UsageQuota.KeyTextInjective).
   */
  lemma ValidHasNoColon(s: string)
    requires IsValidEmail(s)
    ensures forall k :: 0 <= k < |s| ==> s[k] != ':'
  {
    ValidIffPattern(s);
    if FitsPattern(s) {
      var a, d :| ShapeAt(s, a, d);
      PatternCharacters(s, a, d);
    } else {
      var p := s[..|s| - 1];
      var a, d :| ShapeAt(p, a, d);
      PatternCharacters(p, a, d);
      assert forall k :: 0 <= k < |p| ==> s[k] == p[k];
    }
  }
}

=== FILE: entitlement.dfy ===
/**
 * Subscription entitlement, as `check_user_has_subscription` decides it for
 * the chat gate. The billing provider is a collaborator: its answer for the
 * address is a parameter.
 */
module Entitlement {
  import opened EmailFormat

  /**
   * What the billing provider answers for an address: the lookup failed
   * (any exception from the client), there is no customer with that address,
   * or there is one and it does or does not have an active subscription.
   */
  datatype BillingLookup =
    | BillingFailure
    | NoCustomer
    | CustomerFound(hasActiveSubscription: bool)

  /** How many messages a user may still send today. */
  datatype Remaining = Messages(count: nat) | Unlimited

  /** The billing provider is asked only about valid, non-anonymous addresses. */
  predicate QueriesBilling(email: string) {
    email != ANONYMOUS && IsValidEmail(email)
  }

  /**
   * `check_user_has_subscription`: the anonymous sentinel and invalid
   * addresses have no subscription whatever billing would say; a failed
   * lookup or a missing customer count as no subscription (the error is
   * swallowed); only a customer with an active subscription has one.
   */
  function HasSubscription(email: string, billing: BillingLookup): (subscribed: bool)
    ensures !QueriesBilling(email) ==> !subscribed
    ensures billing.BillingFailure? || billing.NoCustomer? ==> !subscribed
    ensures billing == CustomerFound(false) ==> !subscribed
    ensures QueriesBilling(email) && billing == CustomerFound(true) ==> subscribed
  {
    if email == ANONYMOUS || !IsValidEmail(email) then false
    else
      match billing
      case BillingFailure => false
      case NoCustomer => false
      case CustomerFound(active) => active
  }

  /** For an address billing is never asked about, its answer makes no difference. */
  lemma UnqueriedBillingIsIrrelevant(email: string, b1: BillingLookup, b2: BillingLookup)
    requires !QueriesBilling(email)
    ensures HasSubscription(email, b1) == HasSubscription(email, b2) == false
  {
  }

  /** In particular the anonymous sentinel never has a subscription. */
  lemma AnonymousNeverSubscribed(billing: BillingLookup)
    ensures !HasSubscription(ANONYMOUS, billing)
  {
    AnonymousIsInvalid();
  }
}

=== FILE: optional.dfy ===
/** An optional value: a request field that may be absent, a setting that may be unset. */
module Optional {

  datatype Option<+T> = None | Some(value: T) {

    /** The value, or `default` when absent (Python's `dict.get(key, default)`). */
    function GetOr(default: T): T {
      match this
      case Some(v) => v
      case None => default
    }
  }
}

=== FILE: usage_quota.dfy ===
/**
 * The daily usage ledger and the chat gate (`chat`), and the read-only
 * status report of `check_subscription`. The ledger maps a pair (address,
 * day) to the number of chat messages that address was admitted that day;
 * free users are refused once the count reaches ten. The clock, the billing
 * provider and the completion provider are parameters.
 */
module UsageQuota {
  import opened Optional
  import opened EmailFormat
  import opened Entitlement

  /** Free users may send this many messages a day. */
  const DAILY_LIMIT: nat := 10
  /** The completion model named in every answer. */
  const COMPLETION_MODEL: string := "claude-sonnet-4-5-20250929"

  /** A calendar day as `strftime('%Y-%m-%d')` writes it. */
  type Day = string

  /** The ledger key, written `email:day` in the running system. */
  datatype UsageKey = UsageKey(email: string, day: Day)

  type Ledger = map<UsageKey, nat>

  /** The key as the running system writes it. */
  function KeyText(key: UsageKey): string {
    key.email + ":" + key.day
  }

  /**
   * Writing the key as text loses nothing for valid addresses: they contain
   * no `:`, so the first `:` separates the address from the day. This is why
   * the ledger may be keyed by pairs.
   */
  lemma KeyTextInjective(a: UsageKey, b: UsageKey)
    requires IsValidEmail(a.email) && IsValidEmail(b.email)
    requires KeyText(a) == KeyText(b)
    ensures a == b
  {
    ValidHasNoColon(a.email);
    ValidHasNoColon(b.email);
    var t := KeyText(a);
    var i := FirstIndex(t, ':');
    assert KeyText(a)[|a.email|] == ':';
    assert KeyText(b)[|b.email|] == ':';
    assert forall k :: 0 <= k < |a.email| ==> t[k] == a.email[k];
    assert forall k :: 0 <= k < |b.email| ==> t[k] == b.email[k];
    assert i == |a.email| == |b.email|;
    assert a.email == t[..i] == b.email;
    assert a.day == t[i + 1..] == b.day;
  }

  /** `user_usage.get(key, 0)`. */
  function Usage(ledger: Ledger, key: UsageKey): nat {
    if key in ledger then ledger[key] else 0
  }

  /** The ledger invariant: every count lies between one and the daily limit. */
  ghost predicate Bounded(ledger: Ledger) {
    forall k :: k in ledger ==> 1 <= ledger[k] <= DAILY_LIMIT
  }

  /** Only valid, non-anonymous addresses are ever ledger keys. */
  ghost predicate KeysValidated(ledger: Ledger) {
    forall k :: k in ledger ==> QueriesBilling(k.email)
  }

  datatype Message = Message(role: string, content: string)

  /**
   * The fields of a chat request that the gate reads; `userEmail` is already
   * trimmed and lower-cased, and None when absent.
   */
  datatype ChatRequest = ChatRequest(messages: seq<Message>, userEmail: Option<string>)

  /** `data.get('user_email', 'anonymous')`. */
  function UserEmail(req: ChatRequest): string {
    req.userEmail.GetOr(ANONYMOUS)
  }

  /** What the completion provider does with the call. */
  datatype ProviderReply =
    | Completion(text: string)  // the first content block's text
    | ApiError(detail: string)  // the client raised its API error
    | Crash(detail: string)     // any other exception on the way

  datatype ChatResponse =
    | NoMessages                                                      // 400
    | InvalidEmail                                                    // 400
    | LimitReached(messagesLeft: nat, upgradeRequired: bool)          // 429
    | Answered(message: string, model: string, remaining: Remaining)  // 200
    | UpstreamError(detail: string)                                   // 500 "Anthropic API error: ..."
    | ServerError(detail: string)                                     // 500 "Server error: ..."

  /** The responses that can only come after the completion provider was called. */
  predicate CalledProvider(r: ChatResponse) {
    r.Answered? || r.UpstreamError? || r.ServerError?
  }

  /** Users whose chats are metered: neither anonymous nor subscribed. */
  predicate IsFree(email: string, billing: BillingLookup) {
    email != ANONYMOUS && !HasSubscription(email, billing)
  }

  datatype ChatTurn = ChatTurn(response: ChatResponse, ledger: Ledger)

  function Respond(reply: ProviderReply, remaining: Remaining): ChatResponse {
    match reply
    case Completion(text) => Answered(text, COMPLETION_MODEL, remaining)
    case ApiError(detail) => UpstreamError(detail)
    case Crash(detail) => ServerError(detail)
  }

  /**
   * `chat`. An empty message list and an invalid address are refused before
   * anything else; a free user at the limit is refused without a call to the
   * provider; otherwise a free user's count for today goes up by one BEFORE
   * the call, and stays up whatever the provider does. Subscribed and
   * anonymous users are not metered and are told `unlimited`.
   */
  function Chat(ledger: Ledger, req: ChatRequest, today: Day, billing: BillingLookup, reply: ProviderReply): (t: ChatTurn)
    ensures req.messages == [] ==> t == ChatTurn(NoMessages, ledger)
    ensures req.messages != [] && UserEmail(req) != ANONYMOUS && !IsValidEmail(UserEmail(req)) ==>
      t == ChatTurn(InvalidEmail, ledger)
    ensures !CalledProvider(t.response) ==> t.ledger == ledger
    ensures t.response.LimitReached? <==>
      && req.messages != [] && IsValidEmail(UserEmail(req)) && IsFree(UserEmail(req), billing)
      && Usage(ledger, UsageKey(UserEmail(req), today)) >= DAILY_LIMIT
    ensures t.response.LimitReached? ==> t.response == LimitReached(0, true)
    // a request that passes the checks and is not at the limit reaches the provider
    ensures (req.messages != [] && (UserEmail(req) == ANONYMOUS || IsValidEmail(UserEmail(req))) &&
             !t.response.LimitReached?) ==> CalledProvider(t.response)
    // at most one count moves, by one, and only for a free user admitted under the limit
    ensures var key := UsageKey(UserEmail(req), today);
      if CalledProvider(t.response) && IsFree(UserEmail(req), billing) then
        Usage(ledger, key) < DAILY_LIMIT && t.ledger == ledger[key := Usage(ledger, key) + 1]
      else t.ledger == ledger
    ensures t.response.Answered? ==>
      var key := UsageKey(UserEmail(req), today);
      && (t.response.remaining == Unlimited <==> !IsFree(UserEmail(req), billing))
      && (t.response.remaining.Messages? ==>
            t.response.remaining.count == DAILY_LIMIT - Usage(t.ledger, key) < DAILY_LIMIT)
    ensures Bounded(ledger) ==> Bounded(t.ledger)
  {
    var email := UserEmail(req);
    if req.messages == [] then ChatTurn(NoMessages, ledger)
    else if email != ANONYMOUS && !IsValidEmail(email) then ChatTurn(InvalidEmail, ledger)
    else
      var key := UsageKey(email, today);
      var metered := IsFree(email, billing);
      if metered && Usage(ledger, key) >= DAILY_LIMIT then ChatTurn(LimitReached(0, true), ledger)
      else
        var after := if metered then ledger[key := Usage(ledger, key) + 1] else ledger;
        var remaining := if metered then Messages(DAILY_LIMIT - after[key]) else Unlimited;
        ChatTurn(Respond(reply, remaining), after)
  }

  /**
   * The provider's reply decides only the response: the ledger after the
   * chat is the same whether the provider answered or failed (a failed call
   * is not refunded), and a refused chat does not depend on it at all.
   */
  lemma ProviderFailureIsNotRefunded(ledger: Ledger, req: ChatRequest, today: Day, billing: BillingLookup,
                                     r1: ProviderReply, r2: ProviderReply)
    ensures Chat(ledger, req, today, billing, r1).ledger == Chat(ledger, req, today, billing, r2).ledger
    ensures !CalledProvider(Chat(ledger, req, today, billing, r1).response) ==>
      Chat(ledger, req, today, billing, r1) == Chat(ledger, req, today, billing, r2)
  {
  }

  /**
   * Subscribed and anonymous users always reach the provider, are told
   * `unlimited`, and leave the ledger alone.
   */
  lemma UnmeteredChat(ledger: Ledger, req: ChatRequest, today: Day, billing: BillingLookup, reply: ProviderReply)
    requires req.messages != []
    requires UserEmail(req) == ANONYMOUS || HasSubscription(UserEmail(req), billing)
    ensures Chat(ledger, req, today, billing, reply) == ChatTurn(Respond(reply, Unlimited), ledger)
    ensures CalledProvider(Chat(ledger, req, today, billing, reply).response)
  {
    AnonymousNeverSubscribed(billing);
  }

  /** A chat adds a key only for a validated address, so the ledger never holds another. */
  lemma ChatKeepsKeysValidated(ledger: Ledger, req: ChatRequest, today: Day, billing: BillingLookup, reply: ProviderReply)
    requires KeysValidated(ledger)
    ensures KeysValidated(Chat(ledger, req, today, billing, reply).ledger)
  {
  }

  /** The outcome of an admitted chat from a free user, in closed form. */
  lemma ChargedChat(ledger: Ledger, req: ChatRequest, today: Day, billing: BillingLookup, reply: ProviderReply)
    requires req.messages != [] && IsValidEmail(UserEmail(req)) && IsFree(UserEmail(req), billing)
    requires Usage(ledger, UsageKey(UserEmail(req), today)) < DAILY_LIMIT
    ensures var key := UsageKey(UserEmail(req), today);
      var used := Usage(ledger, key) + 1;
      Chat(ledger, req, today, billing, reply) ==
        ChatTurn(Respond(reply, Messages(DAILY_LIMIT - used)), ledger[key := used])
  {
  }

  datatype Run = Run(ledger: Ledger, served: nat)

  /**
   * The same chat sent once per provider reply, in a row on one day; the
   * i-th chat gets `replies[i]` if it reaches the provider. `served` counts
   * the ones that reached it.
   */
  function Repeat(ledger: Ledger, req: ChatRequest, today: Day, billing: BillingLookup, replies: seq<ProviderReply>): Run
    decreases |replies|
  {
    if replies == [] then Run(ledger, 0)
    else
      var t := Chat(ledger, req, today, billing, replies[0]);
      var rest := Repeat(t.ledger, req, today, billing, replies[1..]);
      Run(rest.ledger, rest.served + if CalledProvider(t.response) then 1 else 0)
  }

  function Min(a: int, b: int): int {
    if a <= b then a else b
  }

  /**
   * The daily cap: of `n` chats a free user sends on one day, starting from a
   * count `c` no greater than ten, exactly `min(n, 10 - c)` reach the
   * provider, whatever each call answers or however it fails, and the count
   * ends at `min(c + n, 10)`.
   */
  lemma {:induction false} DailyCap(ledger: Ledger, req: ChatRequest, today: Day, billing: BillingLookup,
                                    replies: seq<ProviderReply>)
    requires req.messages != []
    requires IsValidEmail(UserEmail(req)) && IsFree(UserEmail(req), billing)
    requires Usage(ledger, UsageKey(UserEmail(req), today)) <= DAILY_LIMIT
    ensures var c := Usage(ledger, UsageKey(UserEmail(req), today));
      var run := Repeat(ledger, req, today, billing, replies);
      && run.served == Min(|replies|, DAILY_LIMIT - c)
      && Usage(run.ledger, UsageKey(UserEmail(req), today)) == Min(c + |replies|, DAILY_LIMIT)
    decreases |replies|
  {
    if replies != [] {
      var t := Chat(ledger, req, today, billing, replies[0]);
      DailyCap(t.ledger, req, today, billing, replies[1..]);
    }
  }

  /** With ten chats already admitted today, the next one is refused with nothing left and an upgrade hint. */
  lemma EleventhChatRefused(ledger: Ledger, req: ChatRequest, today: Day, billing: BillingLookup,
                            replies: seq<ProviderReply>, reply: ProviderReply)
    requires req.messages != []
    requires IsValidEmail(UserEmail(req)) && IsFree(UserEmail(req), billing)
    requires Usage(ledger, UsageKey(UserEmail(req), today)) == 0
    requires |replies| == DAILY_LIMIT
    ensures var run := Repeat(ledger, req, today, billing, replies);
      && run.served == DAILY_LIMIT
      && Chat(run.ledger, req, today, billing, reply) == ChatTurn(LimitReached(0, true), run.ledger)
  {
    DailyCap(ledger, req, today, billing, replies);
  }

  /** What `check_subscription` reports. */
  datatype StatusReport =
    | Report(hasSubscription: bool, subscriptionStatus: Option<string>, remaining: Remaining)
    | StatusError  // 500: billing errors are not swallowed here

  /**
   * `check_subscription`: reads the ledger and never changes it. An invalid
   * address is told ten messages without asking billing; a billing failure is
   * an error; with no customer the answer is what is left of today's quota;
   * a customer with an active subscription is unlimited and one without has
   * nothing left.
   */
  function StatusOf(ledger: Ledger, email: string, today: Day, billing: BillingLookup): (r: StatusReport)
    ensures !IsValidEmail(email) ==> r == Report(false, None, Messages(DAILY_LIMIT))
    ensures IsValidEmail(email) && billing.BillingFailure? ==> r == StatusError
    ensures r.Report? ==> (r.hasSubscription <==> r.remaining == Unlimited)
    ensures r.Report? && r.remaining.Messages? ==> r.remaining.count <= DAILY_LIMIT
    ensures IsValidEmail(email) && billing.NoCustomer? ==>
      r == Report(false, None, Messages(DAILY_LIMIT - Min(Usage(ledger, UsageKey(email, today)), DAILY_LIMIT)))
    ensures IsValidEmail(email) && billing == CustomerFound(false) ==> r == Report(false, None, Messages(0))
    ensures IsValidEmail(email) && billing == CustomerFound(true) ==> r == Report(true, Some("active"), Unlimited)
    ensures r == StatusError <==> IsValidEmail(email) && billing.BillingFailure?
  {
    if email == "" || !IsValidEmail(email) then Report(false, None, Messages(DAILY_LIMIT))
    else
      match billing
      case BillingFailure => StatusError
      case NoCustomer =>
        var used := Usage(ledger, UsageKey(email, today));
        Report(false, None, Messages(if used >= DAILY_LIMIT then 0 else DAILY_LIMIT - used))
      case CustomerFound(active) =>
        if active then Report(true, Some("active"), Unlimited)
        else Report(false, None, Messages(0))
  }

  /**
   * For an address with no billing customer, the status report and the chat
   * gate agree: the report shows messages left exactly when the next chat is
   * admitted. (For a customer without an active subscription they do not:
   * the report says 0 while the gate still admits up to ten.)
   */
  lemma StatusAgreesWithGate(ledger: Ledger, req: ChatRequest, today: Day, reply: ProviderReply)
    requires req.messages != [] && UserEmail(req) != ANONYMOUS && IsValidEmail(UserEmail(req))
    ensures var r := StatusOf(ledger, UserEmail(req), today, NoCustomer);
      r.Report? && r.remaining.Messages? &&
      (r.remaining.count > 0 <==> CalledProvider(Chat(ledger, req, today, NoCustomer, reply).response))
  {
  }

  /** A customer without an active subscription is reported as having nothing left, though the gate admits them. */
  lemma LapsedCustomerStatusUnderstates(ledger: Ledger, req: ChatRequest, today: Day, reply: ProviderReply)
    requires req.messages != [] && UserEmail(req) != ANONYMOUS && IsValidEmail(UserEmail(req))
    requires Usage(ledger, UsageKey(UserEmail(req), today)) < DAILY_LIMIT
    ensures StatusOf(ledger, UserEmail(req), today, CustomerFound(false)).remaining == Messages(0)
    ensures CalledProvider(Chat(ledger, req, today, CustomerFound(false), reply).response)
  {
  }

  /** The ledger as the process holds it: one map, read and written in place by the endpoints. */
  class UsageLedger {
    var counts: Ledger

    ghost predicate Valid()
      reads this
    {
      Bounded(counts)
    }

    constructor ()
      ensures Valid() && counts == map[]
    {
      counts := map[];
    }

    /** `chat`, with today's date, the billing answer and the provider's reply supplied by the caller. */
    method HandleChat(req: ChatRequest, today: Day, billing: BillingLookup, reply: ProviderReply)
      returns (response: ChatResponse)
      requires Valid()
      modifies this
      ensures Valid()
      ensures var t := Chat(old(counts), req, today, billing, reply);
        response == t.response && counts == t.ledger
    {
      if req.messages == [] {
        return NoMessages;
      }
      var email := UserEmail(req);
      if email != ANONYMOUS && !IsValidEmail(email) {
        return InvalidEmail;
      }
      var subscribed := HasSubscription(email, billing);
      var remaining: Remaining;
      if !subscribed && email != ANONYMOUS {
        var key := UsageKey(email, today);
        var current := if key in counts then counts[key] else 0;
        if current >= DAILY_LIMIT {
          return LimitReached(0, true);
        }
        ChargedChat(counts, req, today, billing, reply);
        counts := counts[key := current + 1];
        remaining := Messages(DAILY_LIMIT - counts[key]);
      } else {
        UnmeteredChat(counts, req, today, billing, reply);
        remaining := Unlimited;
      }
      response := Respond(reply, remaining);
    }

    /** `check_subscription`; it changes nothing. */
    method CheckSubscription(email: string, today: Day, billing: BillingLookup) returns (report: StatusReport)
      ensures report == StatusOf(counts, email, today, billing)
    {
      report := StatusOf(counts, email, today, billing);
    }
  }
}

=== FILE: verification.dfy ===
/**
 * The email-verification code store behind `verify_email` and
 * `confirm_email`: a map from email to the last code issued for it, when it
 * was issued, and whether it has been confirmed. Issuing overwrites; an
 * expired code is only noticed, and deleted, when someone tries to confirm it.
 * Time is a number of whole seconds and the random draw is a parameter.
 */
module Verification {
  import opened EmailFormat
  import opened DecimalText

  /** Codes stay confirmable for this many seconds after issue. */
  const EXPIRY_SECONDS := 600
  /** The smallest code; the draw `secrets.randbelow(900000)` is added to it. */
  const CODE_BASE := 100000
  const CODE_SPAN := 900000

  datatype Entry = Entry(code: string, issuedAt: int, verified: bool)

  type Store = map<string, Entry>

  datatype IssueOutcome =
    | InvalidEmail          // 400 "Invalid email format"
    | CodeSent(code: string) // 200; the code handed to the mailer

  datatype ConfirmOutcome =
    | NotFound         // 400 "No verification code found for this email"
    | AlreadyVerified  // 200 "Email already verified"
    | Expired          // 400 "Verification code expired"
    | Mismatch         // 400 "Invalid verification code"
    | Verified         // 200 "Email verified successfully!"

  /** Whether the endpoint answers `success: True`. */
  predicate Succeeded(o: ConfirmOutcome) {
    o == AlreadyVerified || o == Verified
  }

  datatype Issuance = Issuance(outcome: IssueOutcome, store: Store)
  datatype Confirmation = Confirmation(outcome: ConfirmOutcome, store: Store)

  /** The code for a draw in `0 .. 899999`: `str(draw + 100000)`, six digits. */
  function CodeFor(draw: int): (code: string)
    requires 0 <= draw < CODE_SPAN
    ensures |code| == 6 && AllDigits(code)
    ensures CODE_BASE <= DigitsValue(code) <= 999999
    ensures DigitsValue(code) == CODE_BASE + draw
  {
    var n := CODE_BASE + draw;
    DecimalRoundTrip(n);
    assert Pow10(5) == 100000;
    DecimalLength(n, 5);
    Decimal(n)
  }

  /**
   * `verify_email`: an invalid address is refused and nothing is stored;
   * otherwise a fresh, unconfirmed entry stamped `now` replaces whatever the
   * address had, and every other address keeps its entry.
   */
  function Issue(store: Store, email: string, now: int, draw: int): (r: Issuance)
    requires 0 <= draw < CODE_SPAN
    ensures !IsValidEmail(email) ==> r.outcome == InvalidEmail && r.store == store
    ensures IsValidEmail(email) ==>
      && r.outcome.CodeSent?
      && |r.outcome.code| == 6 && AllDigits(r.outcome.code)
      && DigitsValue(r.outcome.code) == CODE_BASE + draw
      && email in r.store && r.store[email] == Entry(r.outcome.code, now, false)
    ensures forall e :: e != email ==> (e in r.store <==> e in store)
    ensures forall e :: e != email && e in store ==> r.store[e] == store[e]
  {
    if !IsValidEmail(email) then Issuance(InvalidEmail, store)
    else
      var code := CodeFor(draw);
      Issuance(CodeSent(code), store[email := Entry(code, now, false)])
  }

  /**
   * `confirm_email`. The checks come in the order: is there an entry, is it
   * already confirmed (then any code succeeds, expired or not), is it older
   * than ten minutes (then it is deleted), does the code match. Only the
   * entry of `email` can change, and only Expired and Verified change it.
   */
  function Confirm(store: Store, email: string, code: string, now: int): (r: Confirmation)
    ensures r.outcome == NotFound <==> email !in store
    ensures r.outcome == AlreadyVerified <==> email in store && store[email].verified
    ensures r.outcome == Expired <==>
      email in store && !store[email].verified && now - store[email].issuedAt > EXPIRY_SECONDS
    ensures r.outcome == Mismatch <==>
      && email in store && !store[email].verified
      && now - store[email].issuedAt <= EXPIRY_SECONDS && store[email].code != code
    ensures r.outcome == Verified <==>
      && email in store && !store[email].verified
      && now - store[email].issuedAt <= EXPIRY_SECONDS && store[email].code == code
    // success needs a confirmed entry, or the matching code within the window
    ensures Succeeded(r.outcome) ==>
      && email in store
      && (store[email].verified || (store[email].code == code && now - store[email].issuedAt <= EXPIRY_SECONDS))
    ensures r.outcome == Expired ==> r.store == store - {email}
    ensures r.outcome in {NotFound, AlreadyVerified, Mismatch} ==> r.store == store
    ensures r.outcome == Verified ==> r.store == store[email := store[email].(verified := true)]
  {
    if email !in store then Confirmation(NotFound, store)
    else
      var stored := store[email];
      if stored.verified then Confirmation(AlreadyVerified, store)
      else if now - stored.issuedAt > EXPIRY_SECONDS then Confirmation(Expired, store - {email})
      else if stored.code != code then Confirmation(Mismatch, store)
      else Confirmation(Verified, store[email := stored.(verified := true)])
  }

  /**
   * Issuing and then presenting the issued code within ten minutes confirms
   * the address; presenting any code afterwards still succeeds, until the
   * next issue overwrites the entry.
   */
  lemma IssueThenConfirm(store: Store, email: string, t0: int, draw: int, t1: int, other: string, t2: int)
    requires IsValidEmail(email) && 0 <= draw < CODE_SPAN
    requires t1 - t0 <= EXPIRY_SECONDS
    ensures var issued := Issue(store, email, t0, draw);
      var first := Confirm(issued.store, email, issued.outcome.code, t1);
      var second := Confirm(first.store, email, other, t2);
      first.outcome == Verified && second.outcome == AlreadyVerified && second.store == first.store
  {
  }

  /** A code presented more than ten minutes late is deleted, so the next attempt finds nothing. */
  lemma ExpiredThenNotFound(store: Store, email: string, code: string, now: int, code2: string, later: int)
    requires email in store && !store[email].verified
    requires now - store[email].issuedAt > EXPIRY_SECONDS
    ensures var first := Confirm(store, email, code, now);
      first.outcome == Expired && Confirm(first.store, email, code2, later).outcome == NotFound
  {
  }

  /** Exactly ten minutes after issue the code is still accepted. */
  lemma BoundaryIsNotExpired(store: Store, email: string, t0: int, draw: int)
    requires IsValidEmail(email) && 0 <= draw < CODE_SPAN
    ensures var issued := Issue(store, email, t0, draw);
      Confirm(issued.store, email, issued.outcome.code, t0 + EXPIRY_SECONDS).outcome == Verified
  {
  }

  /**
   * A wrong code within the window leaves the store as it was, so any number
   * of wrong guesses can precede the right one (there is no attempt cap).
   */
  lemma MismatchThenRetry(store: Store, email: string, t0: int, draw: int, guess: string, t1: int, t2: int)
    requires IsValidEmail(email) && 0 <= draw < CODE_SPAN
    requires t0 <= t1 <= t2 <= t0 + EXPIRY_SECONDS
    ensures var issued := Issue(store, email, t0, draw);
      var code := issued.outcome.code;
      var wrong := Confirm(issued.store, email, guess, t1);
      guess != code ==>
        wrong.outcome == Mismatch && wrong.store == issued.store &&
        Confirm(wrong.store, email, code, t2).outcome == Verified
  {
  }

  /** A new issue invalidates the previous code, unless the two draws coincide. */
  lemma ReissueInvalidatesOldCode(store: Store, email: string, t0: int, d0: int, t1: int, d1: int, now: int)
    requires IsValidEmail(email) && 0 <= d0 < CODE_SPAN && 0 <= d1 < CODE_SPAN && d0 != d1
    requires now - t1 <= EXPIRY_SECONDS
    ensures var first := Issue(store, email, t0, d0);
      var second := Issue(first.store, email, t1, d1);
      Confirm(second.store, email, first.outcome.code, now).outcome == Mismatch
  {
    var first := Issue(store, email, t0, d0);
    var second := Issue(first.store, email, t1, d1);
    assert DigitsValue(first.outcome.code) != DigitsValue(second.outcome.code);
  }

  /** The store as the process holds it: one map, updated in place by the two endpoints. */
  class CodeStore {
    var entries: Store

    constructor ()
      ensures entries == map[]
    {
      entries := map[];
    }

    /** `verify_email` with the normalised address, the clock reading and the random draw. */
    method RequestCode(email: string, now: int, draw: int) returns (outcome: IssueOutcome)
      requires 0 <= draw < CODE_SPAN
      modifies this
      ensures var r := Issue(old(entries), email, now, draw);
        outcome == r.outcome && entries == r.store
    {
      if !IsValidEmail(email) {
        return InvalidEmail;
      }
      var code := CodeFor(draw);
      entries := entries[email := Entry(code, now, false)];
      outcome := CodeSent(code);
    }

    /** `confirm_email` with the normalised address, the stripped code and the clock reading. */
    method ConfirmCode(email: string, code: string, now: int) returns (outcome: ConfirmOutcome)
      modifies this
      ensures var r := Confirm(old(entries), email, code, now);
        outcome == r.outcome && entries == r.store
    {
      if email !in entries {
        return NotFound;
      }
      var stored := entries[email];
      if stored.verified {
        return AlreadyVerified;
      }
      if now - stored.issuedAt > EXPIRY_SECONDS {
        entries := entries - {email};
        return Expired;
      }
      if stored.code != code {
        return Mismatch;
      }
      entries := entries[email := stored.(verified := true)];
      outcome := Verified;
    }
  }
}
